=== FILE: README.md ===
# Chatty `TwitchApi` facade — a Dafny model

`TwitchApi` is the entry point through which the Chatty client talks to the
Twitch API. Most of its methods hand the call straight to a manager
(`StreamInfoManager`, `EmoticonManager`, `UserIDs`, `Requests`, …). The
decisions it makes itself are what this project models:

- the **token-check throttle**: `checkToken` verifies a token automatically,
  but only if it is non-null and non-empty and more than `TOKEN_CHECK_DELAY`
  (600) whole seconds have passed since the last automatic check; a manual
  `verifyToken` always verifies and does not touch the throttle;
- the **current token**: `setToken`/`getToken`. Every authenticated request
  (follow, unfollow, put channel info, commercial, AutoMod) carries it;
- **follow/unfollow routing**: the listener that runs once both user ids have
  been looked up either reports a failure naming the target and the error,
  or sends one follow/unfollow request;
- the **emoticon guards**: a request is sent iff `forcedUpdate || !load(false)`,
  and `load` is not called when the update is forced;
- the **stream-set default** of `getStreamInfo`: a `null` set becomes empty.

The facade state is the record `Facade(token, tokenLastChecked)`. Each
operation is a pure function from the state and its inputs to the new state
and a sequence of emitted `Action`s. The actions stand for the network
requests, listener callbacks and manager calls. The wall clock is an input:
`checkToken` reads `System.currentTimeMillis()` twice, once for the
comparison and once for the value it stores. The model takes both readings,
`now` and `later`. Java's 64-bit subtraction and its truncating integer
division are written out in module `JavaLong`.

Files:

- `wrappers.dfy`: `Option`, standing for nullable references.
- `java_long.dfy`: `long` wrap-around and Java's `/`.
- `twitch_api.dfy`: facade state, actions and operations.
- `token_check.dfy`: throttle properties, including runs of many automatic checks.
- `routing.dfy`: follow/unfollow, emoticon and stream-set properties.
- `facade_trace.dfy`: the facade under any sequence of calls and lookup completions.

Three details of the throttle that the model keeps exactly:

- The automatic check fires when `(now - last) / 1000 > 600`. The comparison
  is strict and comes after truncating division, so 600 999 ms does not fire
  and 601 000 ms does.
- `verifyToken` does not touch `tokenLastChecked`, so a manual check does not
  restart the automatic window.
- `tokenLastChecked` is one field shared by all tokens: a check with one token
  can silence a later check with another.

## Model

| member | source | states |
|---|---|---|
| JavaLong.Sub | src/chatty/util/api/TwitchApi.java:171 | the elapsed-time subtraction on `long`s equals the mathematical difference when that fits in a `long`, and is always congruent to it modulo 2^64 |
| JavaLong.SubOfNonNegatives | src/chatty/util/api/TwitchApi.java:171 | with non-negative clock readings the elapsed-time subtraction never overflows |
| JavaLong.Div | src/chatty/util/api/TwitchApi.java:171 | the conversion to seconds truncates toward zero: the quotient is bracketed from below for non-negative and from above for negative dividends |
| TwitchApi.SetToken | src/chatty/util/api/TwitchApi.java:151-153 | after `setToken(t)`, `getToken()` answers `t`, and the throttle timestamp is untouched |
| TwitchApi.CheckToken | src/chatty/util/api/TwitchApi.java:169-176 | an automatic check emits nothing or exactly one verification of the given token; it emits one iff the token is non-null, non-empty and more than 600 whole seconds have elapsed; when it fires it records the second clock reading, otherwise the state is unchanged; the token is never changed |
| TwitchApi.VerifyToken | src/chatty/util/api/TwitchApi.java:178-180 | a manual check always emits exactly one verification of the given token and leaves the state unchanged |
| TwitchApi.RequestEmoticons | src/chatty/util/api/TwitchApi.java:68-78 | a network request is emitted iff the update is forced or the file cache did not load; the cache is consulted iff the update is not forced, and then first; a forced update emits exactly one request, and an unforced one emits one action if the cache loaded and two otherwise |
| TwitchApi.GetStreamInfo | src/chatty/util/api/TwitchApi.java:132-137 | the lookup goes to the given stream, with the given set of streams, or the empty set when none was given |
| TwitchApi.FollowChannel | src/chatty/util/api/TwitchApi.java:230-248 | following or unfollowing starts one id lookup for the user and the target, whose completion is routed back to the same operation |
| TwitchApi.OnIdsResolved | src/chatty/util/api/TwitchApi.java:231-247 | a completed lookup leads to exactly one action: an errored lookup gives only the failure report for the target and the error, and a successful one gives only the request with both resolved ids, the target and the token current at completion |
| TwitchApi.PutChannelInfo | src/chatty/util/api/TwitchApi.java:255-257 | the channel-info update is an authenticated request that carries the given info and the current token |
| TwitchApi.RunCommercial | src/chatty/util/api/TwitchApi.java:263-265 | the commercial request is authenticated and carries stream, length and the current token |
| TwitchApi.AutoMod | src/chatty/util/api/TwitchApi.java:267-269 | the AutoMod request is authenticated and carries action, message id and the current token |
| TokenCheck.FiresIffMillis | src/chatty/util/api/TwitchApi.java:169-175 | without overflow, an automatic check fires iff the token is usable and at least 601 000 ms have passed since the last check |
| TokenCheck.Boundary | src/chatty/util/api/TwitchApi.java:170-174 | from a fresh facade, a check at 600 999 ms does nothing and a check at 601 000 ms verifies and records 601 000 |
| TokenCheck.UnusableTokenIsIgnored | src/chatty/util/api/TwitchApi.java:169-170 | a null or empty token never triggers a check and leaves the state unchanged |
| TokenCheck.CheckNeverMovesBack | src/chatty/util/api/TwitchApi.java:171-173 | if `now - tokenLastChecked` fits in a `long` and the clock does not step back between its two readings, the recorded check time never decreases, and strictly increases when a check fires |
| TokenCheck.QuietAfterFire | src/chatty/util/api/TwitchApi.java:170-173 | after a check fired, every automatic check less than 601 whole seconds past the recorded time emits nothing and changes nothing |
| TokenCheck.ManualVerifyKeepsWindow | src/chatty/util/api/TwitchApi.java:178-180 | a manual verification does not change what the next automatic check does |
| TokenCheck.Fired | src/chatty/util/api/TwitchApi.java:169-175 | the checks that fire during a run of automatic checks, each with its own token, are among the checks made, and there are at most as many |
| TokenCheck.FiredAreSpaced | src/chatty/util/api/TwitchApi.java:169-175 | in any run of automatic checks with non-negative clock readings, whatever token each call passes and even if a call's second reading precedes its first, each verification comes at least 601 000 ms after the time recorded by the previous one |
| TokenCheck.SilentAfterRecord | src/chatty/util/api/TwitchApi.java:169-175 | once the stored time lies inside a 601 000 ms window, no further check whose two readings lie inside that window fires, whatever its token, and without any assumption on the sign of the readings |
| TokenCheck.AtMostOnePerWindow | src/chatty/util/api/TwitchApi.java:169-175 | any number of automatic checks whose readings all lie inside one 601 000 ms window, with any tokens and from any starting state, produce at most one verification |
| TokenCheck.ThreeChecks | src/chatty/util/api/TwitchApi.java:169-175 | checks at t, t + 599 s and t + 601 s verify at the first and the third only |
| TokenCheck.OtherTokenSilenced | src/chatty/util/api/TwitchApi.java:169-175 | after a check with token A fires at t, a check with a different token B at t + 1 s is silent, because the timestamp is shared |
| Routing.FailureMessageNamesTargetAndError | src/chatty/util/api/TwitchApi.java:233 | the failure report contains the target and the error text |
| Routing.FailureMessageNamesKind | src/chatty/util/api/TwitchApi.java:232-243 | a follow failure report never equals an unfollow failure report |
| Routing.FollowRoundTrip | src/chatty/util/api/TwitchApi.java:230-238 | follow, then completion of its lookup: one action, either a report naming target and error, or a request with both ids, the target and the current token |
| Routing.ForcedIgnoresLoad | src/chatty/util/api/TwitchApi.java:74-78 | a forced update sends exactly the request, whatever the cache would have answered |
| Routing.UnforcedConsultsLoadFirst | src/chatty/util/api/TwitchApi.java:68-72 | an unforced update asks the cache first and sends the request only if the cache did not load |
| Routing.NullStreamsIsEmpty | src/chatty/util/api/TwitchApi.java:133-135 | a null set of streams is the same request as the empty set |
| FacadeTrace.Apply | src/chatty/util/api/TwitchApi.java:151-269 | only `setToken` changes the token, only `checkToken` moves the throttle timestamp, and every authenticated request a call emits carries the current token |
| FacadeTrace.ReplayToken | src/chatty/util/api/TwitchApi.java:151-184 | after any sequence of calls, `getToken` answers the argument of the most recent `setToken` (or the earlier token if there was none) |
| FacadeTrace.NoTokenBeforeSet | src/chatty/util/api/TwitchApi.java:45 | on a fresh facade the token is null until the first `setToken` |
| FacadeTrace.AuthenticatedCarryLatestToken | src/chatty/util/api/TwitchApi.java:230-269 | after any sequence of calls, every authenticated request carries the argument of the most recent `setToken` |
| FacadeTrace.LastCheckedNeverDecreases | src/chatty/util/api/TwitchApi.java:169-175 | with non-negative clock readings that do not step back within a call, no sequence of calls moves `tokenLastChecked` backwards |
| FacadeTrace.OnlyAutomaticChecksMoveWindow | src/chatty/util/api/TwitchApi.java:178-180 | no call except `checkToken`, including a manual `verifyToken`, changes `tokenLastChecked` |
| FacadeTrace.FollowUsesTokenAtCompletion | src/chatty/util/api/TwitchApi.java:230-238 | a `setToken` between `followChannel` and its lookup completing changes the token the follow request carries |

## Left out

- Pure forwards to managers whose code is not part of this model: `accessDenied` (passes the notice to the result listener), `getGlobalBadges`, `getRoomBadges`, `getChannelInfo`, `getChatInfo`, `getFollowers`, `getSubscribers`, `getOnlyCachedChannelInfo`, `getCachedChannelInfo`, `getFollowedStreams`, `manualRefreshStreams`, `setUserId`, `waitForUserId`, `getUserId`, `requestUserId`, `performGameSearch`. They make no decision of their own.
- The user-id lookup with its coalescing, the stream-info and channel-info caches, and the emoticon, badge and follower managers. Their classes are not part of this model. An id-lookup result is an abstract value read through `hasError`, `getError` and `getId`. It holds a flag, an error text and a map from names to ids. `getId(name)` is the map's entry, or null when the name is missing. `UserIdResult` is not part of this model, so that choice is not checked against its code. A cache load is only its boolean answer.
- Network requests and result-listener callbacks are emitted `Action` values. What they do is not modelled.
- `getUserIDsTest`, `getUserIDsTest2` and `getUserIDsTest3` only print to standard output. The constructor only wires collaborators.
- `volatile` fields and thread interleavings. Two threads can both pass the throttle guard before either stores its time. The model treats every call as atomic.
- Logging, `CACHED_EMOTICONS_EXPIRE_AFTER` and `RequestResultCode`. This file only declares the last two. It never uses them.
- Null string and object arguments. Java accepts null for `user` and `target` in follow and unfollow, and prints a null target as "null". It also forwards null for the `getStreamInfo` stream, the `putChannelInfo` info, the `runCommercial` stream and the `autoMod` action and message id. The model's `string` and `ChannelInfo` parameters cannot be null. Only the tokens and the stream set are nullable in the model.
- TokenCheck.FiresIffMillis: states the millisecond threshold only when `now - tokenLastChecked` fits in a `long`. With overflow, `CheckToken` still follows the wrapped Java arithmetic exactly.
- TokenCheck.CheckNeverMovesBack: requires that `now - tokenLastChecked` fits in a `long`. With a negative `now` and a large stored time, Java's wrapped difference can fire and record a smaller time. It also assumes the wall clock does not go backwards between the two readings, which `System.currentTimeMillis` does not guarantee.
- FacadeTrace.LastCheckedNeverDecreases: assumes every clock reading is non-negative and no reading is earlier than the one before it in the same call. Otherwise the stored time could go backwards.

=== FILE: facade_trace.dfy ===
/**
 * The facade driven by an arbitrary sequence of public calls and listener
 * completions: which state survives, and which token every authenticated
 * request carries.
 */
module FacadeTrace {
  import opened Wrappers
  import opened JavaLong
  import opened TwitchApi
  import TokenCheck

  /** One entry into the facade: a public method call or a completed id lookup. */
  datatype Call =
    | SetTokenCall(token: Option<string>)
    | CheckTokenCall(token: Option<string>, now: Long, later: Long)
    | VerifyTokenCall(token: Option<string>)
    | RequestEmoticonsCall(kind: EmoteKind, forced: bool, loaded: bool)
    | GetStreamInfoCall(stream: string, streams: Option<set<string>>)
    | FollowChannelCall(followKind: FollowKind, user: string, target: string)
    | IdsResolved(cont: IdContinuation, result: IdResult)
    | PutChannelInfoCall(info: ChannelInfo)
    | RunCommercialCall(stream: string, length: int)
    | AutoModCall(modAction: string, msgId: string)

  /** The effect of a single call on the facade. */
  function Apply(s: Facade, c: Call): (r: Step)
    ensures c.SetTokenCall? ==> r == Step(SetToken(s, c.token), [])
    ensures !c.SetTokenCall? ==> r.state.token == s.token
    ensures !c.CheckTokenCall? ==> r.state.tokenLastChecked == s.tokenLastChecked
    ensures forall a :: a in r.actions && a.Authenticated() ==> a.token == GetToken(s)
  {
    match c
    case SetTokenCall(t) => Step(SetToken(s, t), [])
    case CheckTokenCall(t, now, later) => CheckToken(s, t, now, later)
    case VerifyTokenCall(t) => VerifyToken(s, t)
    case RequestEmoticonsCall(kind, forced, loaded) => Step(s, RequestEmoticons(kind, forced, loaded))
    case GetStreamInfoCall(stream, streams) => Step(s, [GetStreamInfo(stream, streams)])
    case FollowChannelCall(kind, user, target) => Step(s, FollowChannel(kind, user, target))
    case IdsResolved(cont, result) => Step(s, OnIdsResolved(s, cont, result))
    case PutChannelInfoCall(info) => Step(s, [PutChannelInfo(s, info)])
    case RunCommercialCall(stream, length) => Step(s, [RunCommercial(s, stream, length)])
    case AutoModCall(modAction, msgId) => Step(s, [AutoMod(s, modAction, msgId)])
  }

  /** The calls applied in order, first to last, with all emitted actions. */
  function Replay(s: Facade, calls: seq<Call>): Step
    decreases |calls|
  {
    if calls == [] then Step(s, [])
    else
      var r := Apply(s, calls[0]);
      var rest := Replay(r.state, calls[1..]);
      Step(rest.state, r.actions + rest.actions)
  }

  /** The argument of the most recent `setToken` in `calls`, or `initial` if there is none. */
  function LatestToken(calls: seq<Call>, initial: Option<string>): Option<string>
    decreases |calls|
  {
    if calls == [] then initial
    else if calls[|calls| - 1].SetTokenCall? then calls[|calls| - 1].token
    else LatestToken(calls[..|calls| - 1], initial)
  }

  /** Replaying one more call is applying it to the state reached so far. */
  lemma {:induction false} ReplaySnoc(s: Facade, calls: seq<Call>, c: Call)
    ensures Replay(s, calls + [c]).state == Apply(Replay(s, calls).state, c).state
    decreases |calls|
  {
    if calls == [] {
      assert [c][1..] == [];
    } else {
      assert (calls + [c])[1..] == calls[1..] + [c];
      ReplaySnoc(Apply(s, calls[0]).state, calls[1..], c);
    }
  }

  /** `getToken` answers the argument of the most recent `setToken`. */
  lemma {:induction false} ReplayToken(s: Facade, calls: seq<Call>)
    ensures GetToken(Replay(s, calls).state) == LatestToken(calls, GetToken(s))
    decreases |calls|
  {
    if calls != [] {
      var init := calls[..|calls| - 1];
      assert calls == init + [calls[|calls| - 1]];
      ReplaySnoc(s, init, calls[|calls| - 1]);
      ReplayToken(s, init);
    }
  }

  /** Before any `setToken`, the token is `null`. */
  lemma {:induction false} NoTokenBeforeSet(calls: seq<Call>)
    requires forall i :: 0 <= i < |calls| ==> !calls[i].SetTokenCall?
    ensures GetToken(Replay(Init, calls).state) == None
  {
    ReplayToken(Init, calls);
    NoSetMeansInitial(calls, None);
  }

  lemma {:induction false} NoSetMeansInitial(calls: seq<Call>, initial: Option<string>)
    requires forall i :: 0 <= i < |calls| ==> !calls[i].SetTokenCall?
    ensures LatestToken(calls, initial) == initial
    decreases |calls|
  {
    if calls != [] {
      NoSetMeansInitial(calls[..|calls| - 1], initial);
    }
  }

  /**
   * Every authenticated request emitted after a sequence of calls carries the
   * argument of the most recent `setToken` of that sequence.
   */
  lemma AuthenticatedCarryLatestToken(s: Facade, calls: seq<Call>, c: Call)
    ensures forall a :: a in Apply(Replay(s, calls).state, c).actions && a.Authenticated()
                        ==> a.token == LatestToken(calls, GetToken(s))
  {
    ReplayToken(s, calls);
  }

  /** Every automatic check in `calls` reads a non-negative clock that does not step back. */
  predicate SaneClock(calls: seq<Call>) {
    forall i :: 0 <= i < |calls| && calls[i].CheckTokenCall? ==> 0 <= calls[i].now <= calls[i].later
  }

  /** Under a sane clock, no sequence of calls ever moves `tokenLastChecked` backwards. */
  lemma {:induction false} LastCheckedNeverDecreases(s: Facade, calls: seq<Call>)
    requires 0 <= s.tokenLastChecked
    requires SaneClock(calls)
    ensures s.tokenLastChecked <= Replay(s, calls).state.tokenLastChecked
    decreases |calls|
  {
    if calls != [] {
      var c := calls[0];
      var r := Apply(s, c);
      if c.CheckTokenCall? {
        assert 0 <= c.now <= c.later;
        TokenCheck.CheckNeverMovesBack(s, c.token, c.now, c.later);
      }
      assert s.tokenLastChecked <= r.state.tokenLastChecked;
      assert SaneClock(calls[1..]) by {
        forall i | 0 <= i < |calls[1..]| && calls[1..][i].CheckTokenCall?
          ensures 0 <= calls[1..][i].now <= calls[1..][i].later
        {
          assert calls[1..][i] == calls[i + 1];
        }
      }
      LastCheckedNeverDecreases(r.state, calls[1..]);
    }
  }

  /** A manual verification or a token change leaves the automatic-check window as it was. */
  lemma OnlyAutomaticChecksMoveWindow(s: Facade, c: Call)
    requires !c.CheckTokenCall?
    ensures Apply(s, c).state.tokenLastChecked == s.tokenLastChecked
  {
  }

  /**
   * The follow listener reads the token when it runs: a `setToken` between
   * `followChannel` and the completion of its id lookup changes the token sent.
   */
  lemma FollowUsesTokenAtCompletion(s: Facade, user: string, target: string, t: Option<string>,
                                    res: IdResult)
    requires !res.hasError
    ensures var lookup := Replay(s, [FollowChannelCall(Follow, user, target)]).actions[0];
      var done := Replay(s, [FollowChannelCall(Follow, user, target), SetTokenCall(t),
                             IdsResolved(lookup.onResult, res)]);
      done.actions == [lookup, FollowRequest(Follow, GetId(res, user), GetId(res, target), target, t)]
  {
    var cont := FollowContinuation(Follow, user, target);
    var lookup := ResolveIdsAsap([user, target], cont);
    var s' := SetToken(s, t);
    var request := FollowRequest(Follow, GetId(res, user), GetId(res, target), target, t);
    assert Replay(s, [FollowChannelCall(Follow, user, target)]).actions == [lookup] by {
      assert [FollowChannelCall(Follow, user, target)][1..] == [];
    }
    var calls := [FollowChannelCall(Follow, user, target), SetTokenCall(t), IdsResolved(cont, res)];
    assert calls[1..] == [SetTokenCall(t), IdsResolved(cont, res)];
    assert calls[1..][1..] == [IdsResolved(cont, res)];
    assert calls[1..][1..][1..] == [];
    assert Replay(s', [IdsResolved(cont, res)]) == Step(s', [request]);
    assert Replay(s, calls[1..]) == Step(s', [request]);
    assert Replay(s, calls) == Step(s', [lookup, request]);
  }
}

=== FILE: java_long.dfy ===
/**
 * The fragment of Java's 64-bit `long` arithmetic that the token-check
 * throttle relies on: two's-complement subtraction and the integer division
 * that truncates toward zero.
 */
module JavaLong {

  const LONG_MIN: int := -0x8000_0000_0000_0000
  const LONG_MAX: int := 0x7FFF_FFFF_FFFF_FFFF
  const TWO_64: int := 0x1_0000_0000_0000_0000

  /** The values a Java `long` can hold. */
  type Long = x: int | LONG_MIN <= x <= LONG_MAX

  predicate InLongRange(x: int) {
    LONG_MIN <= x <= LONG_MAX
  }

  /** Reduces a mathematical integer into the `long` range, as the JVM does on overflow. */
  function Wrap(x: int): (r: Long)
    ensures InLongRange(x) ==> r == x
    ensures (x - r) % TWO_64 == 0
  {
    ((x - LONG_MIN) % TWO_64) + LONG_MIN
  }

  /** Java's `a - b` on two `long`s. */
  function Sub(a: Long, b: Long): (r: Long)
    ensures InLongRange(a - b) ==> r == a - b
    ensures (a - b - r) % TWO_64 == 0
  {
    Wrap(a - b)
  }

  /** Subtracting two non-negative `long`s never overflows. */
  lemma SubOfNonNegatives(a: Long, b: Long)
    requires 0 <= a && 0 <= b
    ensures Sub(a, b) == a - b
  {
  }

  /**
   * Java's `a / b` for a positive divisor: the quotient is truncated toward
   * zero, unlike Dafny's `/`, which rounds toward negative infinity for
   * negative dividends.
   */
  function Div(a: int, b: int): (q: int)
    requires b > 0
    ensures a >= 0 ==> 0 <= q && q * b <= a < q * b + b
    ensures a < 0 ==> q <= 0 && q * b - b < a <= q * b
  {
    if a >= 0 then
      DivBracket(a, b);
      a / b
    else
      DivBracket(-a, b);
      -((-a) / b)
  }

  /** Dafny's `/` on a non-negative dividend: the quotient brackets the dividend. */
  lemma DivBracket(a: int, b: int)
    requires a >= 0 && b > 0
    ensures 0 <= a / b && (a / b) * b <= a < (a / b) * b + b
  {
    var q, r := a / b, a % b;
    assert a == q * b + r && 0 <= r < b;
  }
}

=== FILE: routing.dfy ===
/**
 * Properties of the facade's routing decisions: the follow/unfollow
 * listener, the emoticon-request guard and the stream-set default.
 */
module Routing {
  import opened Wrappers
  import opened TwitchApi

  /** `part` occurs in `text` starting at position `i`. */
  predicate OccursAt(text: string, part: string, i: int) {
    0 <= i <= |text| - |part| && text[i..i + |part|] == part
  }

  predicate Contains(text: string, part: string) {
    exists i :: 0 <= i <= |text| - |part| && OccursAt(text, part, i)
  }

  /** A failure report names the target (in quotes) and the error cause (in parentheses). */
  lemma FailureMessageNamesTargetAndError(kind: FollowKind, target: string, error: string)
    ensures var m := FailureMessage(kind, target, error);
      && Contains(m, target) && Contains(m, error)
      && m[|m| - 1] == ')'
  {
    var p := FailurePrefix(kind);
    var m := FailureMessage(kind, target, error);
    assert m == p + target + "' (" + error + ")";
    assert OccursAt(m, target, |p|) by {
      assert m[|p|..|p| + |target|] == target;
    }
    var k := |p| + |target| + 3;
    assert OccursAt(m, error, k) by {
      assert m[k..k + |error|] == error;
    }
  }

  /** A follow failure can always be told from an unfollow failure. */
  lemma FailureMessageNamesKind(target: string, error: string, target': string, error': string)
    ensures FailureMessage(Follow, target, error) != FailureMessage(Unfollow, target', error')
  {
    assert FailureMessage(Follow, target, error)[9] == 'f';
    assert FailureMessage(Unfollow, target', error')[9] == 'u';
  }

  /**
   * Issuing a follow or unfollow and then completing the id lookup: the
   * facade does exactly one thing, either reports a failure that names the
   * target and cause, or sends one request with both ids and the token
   * current when the lookup completes.
   */
  lemma FollowRoundTrip(s: Facade, kind: FollowKind, user: string, target: string, res: IdResult)
    ensures var lookup := FollowChannel(kind, user, target)[0];
      var out := OnIdsResolved(s, lookup.onResult, res);
      && |out| == 1
      && (res.hasError ==>
            out[0].FollowResultMessage? && Contains(out[0].text, target) && Contains(out[0].text, res.error))
      && (!res.hasError ==> out[0] == FollowRequest(kind, GetId(res, user), GetId(res, target),
                                                   target, GetToken(s)))
  {
    FailureMessageNamesTargetAndError(kind, target, res.error);
  }

  /** A forced update issues the request without asking the manager's file cache. */
  lemma ForcedIgnoresLoad(kind: EmoteKind, loaded: bool, loaded': bool)
    ensures RequestEmoticons(kind, true, loaded) == RequestEmoticons(kind, true, loaded')
    ensures RequestEmoticons(kind, true, loaded) == [EmoticonsRequest(kind, true)]
  {
  }

  /** An unforced update asks the cache first and goes to the network only if that failed. */
  lemma UnforcedConsultsLoadFirst(kind: EmoteKind, loaded: bool)
    ensures RequestEmoticons(kind, false, loaded)
         == [LoadCached(kind)] + (if loaded then [] else [EmoticonsRequest(kind, false)])
  {
  }

  /** Passing no stream set and passing the empty set are the same request. */
  lemma NullStreamsIsEmpty(stream: string)
    ensures GetStreamInfo(stream, None) == GetStreamInfo(stream, Some({}))
  {
  }
}

=== FILE: token_check.dfy ===
/**
 * Properties of the automatic token-check throttle: what exactly makes it
 * fire, that its timestamp only moves forward, and that two automatic
 * verifications are always more than `TOKEN_CHECK_DELAY` seconds apart.
 */
module TokenCheck {
  import opened Wrappers
  import opened JavaLong
  import opened TwitchApi

  /**
   * Without overflow the throttle fires exactly when at least 601 000 ms
   * have passed: the seconds are truncated before the strict comparison.
   */
  lemma FiresIffMillis(s: Facade, token: Option<string>, now: Long, later: Long)
    requires InLongRange(now - s.tokenLastChecked)
    ensures CheckToken(s, token, now, later).actions != []
        <==> Usable(token) && now - s.tokenLastChecked >= (TOKEN_CHECK_DELAY + 1) * 1000
  {
    var d := now - s.tokenLastChecked;
    assert Sub(now, s.tokenLastChecked) == d;
    var q := Div(d, 1000);
    if d >= (TOKEN_CHECK_DELAY + 1) * 1000 {
      assert q > TOKEN_CHECK_DELAY;
    }
    if q > TOKEN_CHECK_DELAY {
      assert d >= q * 1000 >= (TOKEN_CHECK_DELAY + 1) * 1000;
    }
  }

  /** With the last check at 0 ms, 600 999 ms later nothing happens; at 601 000 ms it fires. */
  lemma Boundary(token: string)
    requires |token| > 0
    ensures CheckToken(Init, Some(token), 600_999, 600_999) == Step(Init, [])
    ensures CheckToken(Init, Some(token), 601_000, 601_000)
         == Step(Facade(None, 601_000), [VerifyTokenRequest(Some(token))])
  {
    FiresIffMillis(Init, Some(token), 600_999, 600_999);
    FiresIffMillis(Init, Some(token), 601_000, 601_000);
  }

  /** A null or empty token never triggers a check and leaves the state alone. */
  lemma UnusableTokenIsIgnored(s: Facade, token: Option<string>, now: Long, later: Long)
    requires !Usable(token)
    ensures CheckToken(s, token, now, later) == Step(s, [])
  {
  }

  /**
   * If the clock does not step back between the two clock readings, and the
   * subtraction does not overflow, the recorded check time only grows, and
   * strictly so when a check fires.
   */
  lemma CheckNeverMovesBack(s: Facade, token: Option<string>, now: Long, later: Long)
    requires InLongRange(now - s.tokenLastChecked)
    requires now <= later
    ensures var r := CheckToken(s, token, now, later);
      && s.tokenLastChecked <= r.state.tokenLastChecked
      && (r.actions != [] ==> s.tokenLastChecked < r.state.tokenLastChecked)
  {
    FiresIffMillis(s, token, now, later);
  }

  /** After a check fired, any automatic check within the next 600 whole seconds is silent. */
  lemma QuietAfterFire(s: Facade, token: Option<string>, now: Long, later: Long,
                       token': Option<string>, now': Long, later': Long)
    requires CheckToken(s, token, now, later).actions != []
    requires ElapsedSeconds(now', later) <= TOKEN_CHECK_DELAY
    ensures var s' := CheckToken(s, token, now, later).state;
      CheckToken(s', token', now', later') == Step(s', [])
  {
  }

  /** A manual verification does not reset or otherwise disturb the automatic window. */
  lemma ManualVerifyKeepsWindow(s: Facade, manual: Option<string>, token: Option<string>,
                                now: Long, later: Long)
    ensures CheckToken(VerifyToken(s, manual).state, token, now, later) == CheckToken(s, token, now, later)
  {
  }

  //======================================
  // A run of automatic checks over time
  //======================================

  /**
   * One `checkToken` call: the token it was given and its two clock
   * readings. All calls share the facade's single `tokenLastChecked`,
   * whatever token each one passes.
   */
  datatype AutoCheck = AutoCheck(token: Option<string>, now: Long, later: Long)

  /** Both clock readings are non-negative; the second may still precede the first. */
  predicate NonNegativeReads(c: AutoCheck) {
    0 <= c.now && 0 <= c.later
  }

  /** The calls among `checks` that verified a token, in order. */
  function Fired(s: Facade, checks: seq<AutoCheck>): (f: seq<AutoCheck>)
    ensures |f| <= |checks|
    ensures forall c :: c in f ==> c in checks
    decreases |checks|
  {
    if checks == [] then []
    else
      var c := checks[0];
      var r := CheckToken(s, c.token, c.now, c.later);
      (if r.actions != [] then [c] else []) + Fired(r.state, checks[1..])
  }

  /**
   * Every automatic verification happens at least 601 000 ms after the
   * time recorded by the previous one (or after the starting timestamp),
   * even when the calls pass different tokens.
   */
  lemma {:induction false} FiredAreSpaced(s: Facade, checks: seq<AutoCheck>)
    requires 0 <= s.tokenLastChecked
    requires forall i :: 0 <= i < |checks| ==> NonNegativeReads(checks[i])
    ensures var f := Fired(s, checks);
      && (|f| > 0 ==> f[0].now - s.tokenLastChecked >= (TOKEN_CHECK_DELAY + 1) * 1000)
      && forall i :: 0 < i < |f| ==> f[i].now - f[i - 1].later >= (TOKEN_CHECK_DELAY + 1) * 1000
    decreases |checks|
  {
    if checks != [] {
      var c := checks[0];
      var r := CheckToken(s, c.token, c.now, c.later);
      FiresIffMillis(s, c.token, c.now, c.later);
      FiredAreSpaced(r.state, checks[1..]);
      var rest := Fired(r.state, checks[1..]);
      var f := Fired(s, checks);
      if r.actions != [] {
        assert f == [c] + rest;
        assert r.state.tokenLastChecked == c.later;
        forall i | 0 < i < |f|
          ensures f[i].now - f[i - 1].later >= (TOKEN_CHECK_DELAY + 1) * 1000
        {
          assert f[i] == rest[i - 1];
          if i > 1 {
            assert f[i - 1] == rest[i - 2];
          }
        }
      } else {
        assert f == rest;
      }
    }
  }

  /** Both readings of a call fall in the 601 000 ms that start at `lo`. */
  predicate InWindow(c: AutoCheck, lo: int) {
    && lo <= c.now < lo + (TOKEN_CHECK_DELAY + 1) * 1000
    && lo <= c.later < lo + (TOKEN_CHECK_DELAY + 1) * 1000
  }

  /** While the stored time lies inside the window, no check in the window fires, whatever its token. */
  lemma {:induction false} SilentAfterRecord(s: Facade, checks: seq<AutoCheck>, lo: int)
    requires lo <= s.tokenLastChecked < lo + (TOKEN_CHECK_DELAY + 1) * 1000
    requires forall i :: 0 <= i < |checks| ==> InWindow(checks[i], lo)
    ensures Fired(s, checks) == []
    decreases |checks|
  {
    if checks != [] {
      var c := checks[0];
      assert InWindow(c, lo);
      FiresIffMillis(s, c.token, c.now, c.later);
      assert CheckToken(s, c.token, c.now, c.later) == Step(s, []);
      SilentAfterRecord(s, checks[1..], lo);
    }
  }

  /** However many automatic checks, with whatever tokens, happen inside one such window, at most one verifies. */
  lemma {:induction false} AtMostOnePerWindow(s: Facade, checks: seq<AutoCheck>, lo: int)
    requires forall i :: 0 <= i < |checks| ==> InWindow(checks[i], lo)
    ensures |Fired(s, checks)| <= 1
    decreases |checks|
  {
    if checks != [] {
      var c := checks[0];
      assert InWindow(c, lo);
      var r := CheckToken(s, c.token, c.now, c.later);
      if r.actions != [] {
        SilentAfterRecord(r.state, checks[1..], lo);
      } else {
        AtMostOnePerWindow(s, checks[1..], lo);
      }
    }
  }

  /**
   * Checks at t, t + 599 s and t + 601 s, long after the previous one:
   * the first and the third verify, the second does not.
   */
  lemma ThreeChecks(token: string, t: Long)
    requires |token| > 0
    requires (TOKEN_CHECK_DELAY + 1) * 1000 <= t <= LONG_MAX - 601_000
    ensures var checks := [AutoCheck(Some(token), t, t),
                           AutoCheck(Some(token), t + 599_000, t + 599_000),
                           AutoCheck(Some(token), t + 601_000, t + 601_000)];
      Fired(Init, checks) == [checks[0], checks[2]]
  {
    var checks := [AutoCheck(Some(token), t, t),
                   AutoCheck(Some(token), t + 599_000, t + 599_000),
                   AutoCheck(Some(token), t + 601_000, t + 601_000)];
    FiresIffMillis(Init, Some(token), t, t);
    var s1 := Facade(None, t);
    assert CheckToken(Init, Some(token), t, t) == Step(s1, [VerifyTokenRequest(Some(token))]);
    FiresIffMillis(s1, Some(token), t + 599_000, t + 599_000);
    assert CheckToken(s1, Some(token), t + 599_000, t + 599_000) == Step(s1, []);
    FiresIffMillis(s1, Some(token), t + 601_000, t + 601_000);
    var s3 := Facade(None, t + 601_000);
    assert CheckToken(s1, Some(token), t + 601_000, t + 601_000)
        == Step(s3, [VerifyTokenRequest(Some(token))]);
    assert checks[1..][1..] == [checks[2]];
    assert checks[1..][1..][1..] == [];
    assert Fired(s3, []) == [];
    assert Fired(s1, [checks[2]]) == [checks[2]];
    assert Fired(s1, checks[1..]) == [checks[2]];
  }

  /**
   * The window is shared between tokens: after a check with one token
   * fires, a check with a different token one second later is silenced.
   */
  lemma OtherTokenSilenced(a: string, b: string, t: Long)
    requires |a| > 0 && |b| > 0
    requires (TOKEN_CHECK_DELAY + 1) * 1000 <= t <= LONG_MAX - 1_000
    ensures var checks := [AutoCheck(Some(a), t, t), AutoCheck(Some(b), t + 1_000, t + 1_000)];
      Fired(Init, checks) == [checks[0]]
  {
    var checks := [AutoCheck(Some(a), t, t), AutoCheck(Some(b), t + 1_000, t + 1_000)];
    FiresIffMillis(Init, Some(a), t, t);
    var s1 := Facade(None, t);
    assert CheckToken(Init, Some(a), t, t) == Step(s1, [VerifyTokenRequest(Some(a))]);
    FiresIffMillis(s1, Some(b), t + 1_000, t + 1_000);
    assert CheckToken(s1, Some(b), t + 1_000, t + 1_000) == Step(s1, []);
    assert checks[1..] == [checks[1]];
    assert checks[1..][1..] == [];
    assert Fired(s1, [checks[1]]) == [];
  }
}

=== FILE: twitch_api.dfy ===
/**
 * The decision logic of Chatty's `TwitchApi` facade.
 *
 * The facade keeps two pieces of state: the current authentication token and
 * the time (in milliseconds) of the last automatic token check. Everything it
 * hands to its collaborators (network requests, result-listener callbacks,
 * cache loads, user-id lookups) is modelled as an emitted `Action`; each
 * operation is a pure function from the current state and its inputs to the
 * actions it emits and, where it changes anything, the new state.
 */
module TwitchApi {
  import opened Wrappers
  import opened JavaLong

  /** Minimum number of whole seconds between two automatic token checks. */
  const TOKEN_CHECK_DELAY: int := 600

  /** The facade's own mutable fields; a `null` token is `None`. */
  datatype Facade = Facade(token: Option<string>, tokenLastChecked: Long)

  /** A freshly constructed facade: no token yet, never checked. */
  const Init: Facade := Facade(None, 0)

  /** Which of the two emoticon managers a request is about. */
  datatype EmoteKind = Emoticons | CheerEmoticons

  datatype FollowKind = Follow | Unfollow

  /** An opaque channel-info record passed through to the network layer. */
  datatype ChannelInfo = ChannelInfo(payload: string)

  /** What the facade does once a user-id lookup completes. */
  datatype IdContinuation = FollowContinuation(kind: FollowKind, user: string, target: string)

  /**
   * The result handed to a user-id listener, seen only through its three
   * accessors: `hasError()`, `getError()` and `getId(name)`.
   */
  datatype IdResult = IdResult(hasError: bool, error: string, ids: map<string, string>)

  /** `getId(name)`: the resolved id, or `null` when the name has none. */
  function GetId(r: IdResult, name: string): (id: Option<string>)
    ensures id.Some? <==> name in r.ids
    ensures id.Some? ==> id.value == r.ids[name]
  {
    if name in r.ids then Some(r.ids[name]) else None
  }

  datatype Action =
    | VerifyTokenRequest(token: Option<string>)
    /** The emoticon manager's `load(false)` call, which tries the file cache. */
    | LoadCached(kind: EmoteKind)
    | EmoticonsRequest(kind: EmoteKind, forced: bool)
    | StreamInfoLookup(stream: string, streams: set<string>)
    | ResolveIdsAsap(names: seq<string>, onResult: IdContinuation)
    | FollowRequest(followKind: FollowKind, userId: Option<string>, targetId: Option<string>,
                    target: string, token: Option<string>)
    | FollowResultMessage(text: string)
    | PutChannelInfoRequest(info: ChannelInfo, token: Option<string>)
    | CommercialRequest(stream: string, token: Option<string>, length: int)
    | AutoModRequest(modAction: string, msgId: string, token: Option<string>)
  {
    /** Requests that are sent with the facade's current token. */
    predicate Authenticated() {
      FollowRequest? || PutChannelInfoRequest? || CommercialRequest? || AutoModRequest?
    }
  }

  /** The outcome of one facade operation. */
  datatype Step = Step(state: Facade, actions: seq<Action>)

  //======
  // Token
  //======

  function SetToken(s: Facade, token: Option<string>): (r: Facade)
    ensures GetToken(r) == token
    ensures r.tokenLastChecked == s.tokenLastChecked
  {
    s.(token := token)
  }

  function GetToken(s: Facade): Option<string> {
    s.token
  }

  /** Whole seconds elapsed between `last` and `now`, computed as Java computes them. */
  function ElapsedSeconds(now: Long, last: Long): int {
    Div(Sub(now, last), 1000)
  }

  /** A token that `checkToken` accepts: non-null and non-empty. */
  predicate Usable(token: Option<string>) {
    token.Some? && |token.value| > 0
  }

  /** The guard of an automatic token check. */
  predicate ShouldCheck(token: Option<string>, last: Long, now: Long) {
    Usable(token) && ElapsedSeconds(now, last) > TOKEN_CHECK_DELAY
  }

  /**
   * Automatic token check. The clock is read twice: `now` is compared
   * against the last check, `later` is what gets recorded.
   */
  function CheckToken(s: Facade, token: Option<string>, now: Long, later: Long): (r: Step)
    ensures r.state.token == s.token
    ensures r.actions == [] || r.actions == [VerifyTokenRequest(token)]
    ensures r.actions != [] <==> ShouldCheck(token, s.tokenLastChecked, now)
    ensures r.actions == [] ==> r.state == s
    ensures r.actions != [] ==> r.state.tokenLastChecked == later && Usable(token)
  {
    if ShouldCheck(token, s.tokenLastChecked, now) then
      Step(s.(tokenLastChecked := later), [VerifyTokenRequest(token)])
    else
      Step(s, [])
  }

  /** Manual token check: always verifies, and leaves the automatic window alone. */
  function VerifyToken(s: Facade, token: Option<string>): (r: Step)
    ensures r.state == s
    ensures r.actions == [VerifyTokenRequest(token)]
  {
    Step(s, [VerifyTokenRequest(token)])
  }

  //==================
  // Emoticons
  //==================

  /**
   * `requestEmoticons` / `requestCheerEmoticons`: `loaded` is what the
   * manager's `load(false)` would answer; it is only asked when the update
   * is not forced.
   */
  function RequestEmoticons(kind: EmoteKind, forced: bool, loaded: bool): (r: seq<Action>)
    ensures EmoticonsRequest(kind, forced) in r <==> forced || !loaded
    ensures LoadCached(kind) in r <==> !forced
    ensures forall a :: a in r ==> a == LoadCached(kind) || a == EmoticonsRequest(kind, forced)
    ensures |r| <= 2
    ensures !forced ==> r[0] == LoadCached(kind)
    ensures forced ==> r == [EmoticonsRequest(kind, true)]
    ensures |r| == (if forced || loaded then 1 else 2)
  {
    if forced then
      [EmoticonsRequest(kind, forced)]
    else if !loaded then
      [LoadCached(kind), EmoticonsRequest(kind, forced)]
    else
      [LoadCached(kind)]
  }

  //===================
  // Stream information
  //===================

  /** `getStreamInfo`: a missing set of streams becomes the empty set. */
  function GetStreamInfo(stream: string, streams: Option<set<string>>): (r: Action)
    ensures r.StreamInfoLookup? && r.stream == stream
    ensures streams.None? ==> r.streams == {}
    ensures streams.Some? ==> r.streams == streams.value
  {
    StreamInfoLookup(stream, streams.GetOr({}))
  }

  //================
  // User management
  //================

  /** `followChannel` / `unfollowChannel`: look up both ids, then continue. */
  function FollowChannel(kind: FollowKind, user: string, target: string): (r: seq<Action>)
    ensures |r| == 1 && r[0].ResolveIdsAsap?
    ensures r[0].names == [user, target]
    ensures r[0].onResult == FollowContinuation(kind, user, target)
  {
    [ResolveIdsAsap([user, target], FollowContinuation(kind, user, target))]
  }

  function FailurePrefix(kind: FollowKind): string {
    match kind
    case Follow => "Couldn't follow '"
    case Unfollow => "Couldn't unfollow '"
  }

  /** The text reported to the user when a follow or unfollow cannot start. */
  function FailureMessage(kind: FollowKind, target: string, error: string): string {
    FailurePrefix(kind) + target + "' (" + error + ")"
  }

  /**
   * The body of the id-lookup listener. It runs when the lookup completes,
   * so the token it sends is the one current at that moment (`s`).
   */
  function OnIdsResolved(s: Facade, cont: IdContinuation, res: IdResult): (r: seq<Action>)
    ensures |r| == 1
    ensures r[0].FollowResultMessage? <==> res.hasError
    ensures r[0].FollowRequest? <==> !res.hasError
    ensures res.hasError ==> r[0].text == FailureMessage(cont.kind, cont.target, res.error)
    ensures !res.hasError ==>
      r[0] == FollowRequest(cont.kind, GetId(res, cont.user), GetId(res, cont.target),
                            cont.target, GetToken(s))
  {
    if res.hasError then
      [FollowResultMessage(FailureMessage(cont.kind, cont.target, res.error))]
    else
      [FollowRequest(cont.kind, GetId(res, cont.user), GetId(res, cont.target), cont.target, s.token)]
  }

  //===================
  // Admin / moderation
  //===================

  function PutChannelInfo(s: Facade, info: ChannelInfo): (r: Action)
    ensures r.Authenticated() && r.token == GetToken(s)
    ensures r == PutChannelInfoRequest(info, r.token)
  {
    PutChannelInfoRequest(info, s.token)
  }

  function RunCommercial(s: Facade, stream: string, length: int): (r: Action)
    ensures r.Authenticated() && r.token == GetToken(s)
    ensures r == CommercialRequest(stream, r.token, length)
  {
    CommercialRequest(stream, s.token, length)
  }

  function AutoMod(s: Facade, modAction: string, msgId: string): (r: Action)
    ensures r.Authenticated() && r.token == GetToken(s)
    ensures r == AutoModRequest(modAction, msgId, r.token)
  {
    AutoModRequest(modAction, msgId, s.token)
  }
}

=== FILE: wrappers.dfy ===
/** The nullable references of the facade, made explicit. */
module Wrappers {

  /** `None` stands for a Java `null`. */
  datatype Option<+T> = None | Some(value: T) {

    /** Returns the value held in `Some`, or `default` for `None`. */
    function GetOr(default: T): (r: T)
      ensures Some? ==> r == value
      ensures None? ==> r == default
    {
      match this
      case Some(v) => v
      case None => default
    }
  }
}
